=== FILE: README.md ===
# pyre: the fire simulation core, modelled in Dafny

`pyre.py` draws an animated ASCII fire in a terminal. Each cell of a grid holds
an integer intensity, from 0 to `MAX_INTENSITY` (100). Each frame, every
cell's new intensity is computed from three neighbours in the row below it
(row `i - 1`). A random draw from half their sum to all of it is taken,
divided by a fade that grows with the distance from the heat source, and
multiplied by a scale. The result is mapped to a glyph (`' .*#@'`) and to a
colour of a 32-entry black-red-yellow ramp, drawn with the rows flipped, and
stored back into the grid.

The model covers the integer logic of the `Fire` class:

- `runtime.dfy` (`Runtime`) holds the host-language semantics the code relies on:
  - `min`;
  - `int()` of a true division, which truncates toward zero;
  - list indexing, where negative indices count from the end;
  - `random.randint`, which raises `ValueError` on an empty range. Its randomness is a natural number supplied by the caller.
- `palette.dfy` (`Palette`) holds the constants, the `color(r, g, b)` helper, the `heat` and `particles` tables, and the two quantizers `get_particle` and `get_color`.
- `propagation.dfy` (`Propagation`) holds the read rule `intensity` and the per-cell update `get_intensity`.
- `frame_pass.dfy` (`FramePass`) describes one pass of `redraw`'s nested loops as a function, `Pass`. It is built on `Sweep`, which runs the loops with any per-cell rule. The lemmas about `Sweep` need only stated properties of the rule, and separate lemmas prove those properties for the fire's own rule, `FireRule`. Cells are visited in the source's order, and each new value is stored before the next cell is read. An exception stops the pass where it is raised. Screen writes are recorded as `(y, x, glyph, colour)`.
- `fire_state.dfy` (`FireState`) holds the class `Fire`. Its grid `prevFire` is reassigned cell by cell, as the source mutates its list of lists. `Resize` rebuilds the grid. `Redraw` runs the outer loop over the rows, `RedrawRow` the inner loop over a row's cells, and `RedrawCell` one cell's body. Each method's contract ties its result to the matching stretch of `Pass`.

Two things the code does are left abstract. Both are parameters:

- **Random draws.** `noise(i, j)` is the random number used at cell `(i, j)`. `RandIntCovers` and `EveryDrawReachable` show that this loses no outcome.
- **The floating-point fade and scale.** `Settings.attenuate(d, draw)` stands for `int(draw / d ** 0.3 * scale)`. Here `d` is the cell's distance from the heat source, counted from 1.

Facts about `attenuate` are assumed only where a lemma needs them, as that lemma's preconditions:

- a draw of 0 gives 0 (`BelowSourceIsZero`, `PassZeroBelowSource`, `SamePassDiffersFromPreviousFrame`);
- non-negative draws give non-negative values (`NonNegative`, used by the range invariant);
- in row 0 (fade base 1), a draw of 100 or more gives 100 or more (`BottomRowGetsSource`, `SamePassDiffersFromPreviousFrame`); this needs a scale of at least 1;
- in row 1 (fade base 2), a draw of 50 or more gives at least 1 (`SamePassDiffersFromPreviousFrame`).

The example lemma `RowAboveReadsBelow` goes further and uses `Unfaded`, which takes the fade and the scale as 1 in every row. No value of the scale setting gives that, because the fade `d ** 0.3` changes from row to row.

Where the code does something its comments, or a reader, would not expect, the model follows the code:

- **Reads see the current pass.** The comments at pyre.py:95 and pyre.py:107-108 say a read returns the previous frame's value. In fact `redraw` goes up from row 0, and row `i` reads row `i - 1` after that row has been overwritten in the same pass. `PassReadsSamePass` proves this. `SamePassDiffersFromPreviousFrame` shows that it changes the result.
- **Only the upper end is capped.** Intensities are capped at 100 but never floored at 0. With a negative scale or a negative start intensity, a cell can hold a negative value. A neighbour sum of -2 or less then makes `randint` raise `ValueError`. A negative glyph or colour index wraps around its table, or raises `IndexError` below -5 or -32. The model keeps these paths. It proves the `[0, 100]` invariant only for non-negative settings.
- **The heat source is a virtual row.** The heat-source row is `START_HEIGHT - 1`, and reads of it never touch the grid. The grid row with that index is still computed and stored. All rows under `START_HEIGHT` compute to 0.
- **Row -1 wraps to the top row.** When `START_HEIGHT` is -1 or less, row 0 reads "row -1", which Python resolves to the top row of the grid. With two or more grid rows, the top row has not yet been visited when row 0 is computed, so row 0 reads the previous frame's values; `PassRowZeroReadsPreviousFrame` proves this. On a grid with one row, row 0 reads itself. The model keeps this, so no read in a pass ever leaves the list, whatever `START_HEIGHT` is.

## Model

| member | source | states |
|---|---|---|
| `Runtime.Min` | pyre.py:105 | `min` is at most both arguments and equal to one of them |
| `Runtime.TruncDiv` | pyre.py:116 | `int(a / b)` for a positive divisor; its meaning is stated by `TruncDivBounds` and `TruncDivMonotone` |
| `Runtime.TruncDivBounds` | pyre.py:116 | `int(a / b)` for b > 0 is the quotient rounded toward zero: `q*b <= a < q*b + b` for a >= 0, and `q*b - b < a <= q*b` for a < 0 |
| `Runtime.TruncDivMonotone` | pyre.py:121 | truncated division by a positive divisor is non-decreasing in the dividend |
| `Runtime.Index` | pyre.py:118 | list indexing succeeds exactly for indices in `[-len, len)`; a non-negative index gives that element, and a negative index `k` the element `len + k` |
| `Runtime.RandInt` | pyre.py:112 | `randint(lo, hi)` succeeds exactly when `lo <= hi`, returns a value in `[lo, hi]`, and otherwise raises ValueError |
| `Runtime.RandIntPicks` | pyre.py:112 | a random number no larger than `hi - lo` draws the value that far above `lo` |
| `Runtime.RandIntCovers` | pyre.py:112 | every value of a non-empty range is drawn by some random number |
| `Palette.Color` | pyre.py:46-47 | any RGB triple with channels in [0, 255] maps into the colour cube [16, 231] |
| `Palette.ColorDecodes` | pyre.py:46-47 | the colour number determines the three channel levels `r//48`, `g//48`, `b//48` it was built from |
| `Palette.ColorMonotone` | pyre.py:46-47 | raising any channel never lowers the colour number |
| `Palette.Heat` | pyre.py:48 | the ramp has 32 entries, each a cube colour in [16, 231] |
| `Palette.HeatIsColorRamp` | pyre.py:46-48 | entry `k` of the ramp is `color(16*k, 0, 0)` and entry `16 + k` is `color(255, 16*k, 0)`, for `k` in [0, 16) |
| `Palette.HeatNonDecreasing` | pyre.py:48 | the ramp is non-decreasing from black to yellow |
| `Palette.HeatEnds` | pyre.py:48 | the ramp starts at black (16), is full red (196) at entry 16 and ends at 226 |
| `Palette.Particles` | pyre.py:49-50 | the glyph table has `NUM_PARTICLES` (5) entries, from blank `' '` to densest `'@'` |
| `Palette.Quantize` | pyre.py:115-122 | `min(int(x*n/MAX), n-1)` never exceeds `n - 1`, and is at least 0 for a non-negative intensity |
| `Palette.QuantizeIsBucket` | pyre.py:116-117 | for a non-negative intensity the index is the largest `k < n` with `k*MAX <= x*n` |
| `Palette.QuantizeMonotone` | pyre.py:115-122 | a hotter cell never gets a lower glyph or colour index |
| `Palette.ParticleIndex` | pyre.py:116-117 | a non-negative intensity gives a glyph index in [0, 4] |
| `Palette.ColorIndex` | pyre.py:121-122 | a non-negative intensity gives a colour index in [0, 29], and every index is below the ramp's length |
| `Palette.GetParticle` | pyre.py:115-118 | `get_particle`; its behaviour is stated by `GetParticleCases`, `QuantizeIsBucket` and `QuantizeMonotone` |
| `Palette.GetParticleCases` | pyre.py:115-118 | a non-negative intensity gets the glyph of its bucket; IndexError is raised exactly for intensities of -120 and below; in between, a negative index wraps around the table |
| `Palette.GetColor` | pyre.py:120-123 | `get_color`; its behaviour is stated by `GetColorCases`, `QuantizeIsBucket`, `QuantizeMonotone` and `HeatNonDecreasing` |
| `Palette.GetColorCases` | pyre.py:120-123 | a non-negative intensity gets the ramp colour of its bucket, in [16, 231]; IndexError is raised exactly for intensities of -110 and below; in between, a negative index wraps around the ramp |
| `Propagation.GridSize` | pyre.py:93 | a screen of `n` lines (or columns) gives `n - 1` grid rows (or columns), none when `n <= 1` |
| `Propagation.Intensity` | pyre.py:96-105 | `intensity`; its behaviour is stated by `IntensityCases`, `RowMinusOneIsTopRow`, `IntensityReadsOneRow` and `ReadNonNegative` |
| `Propagation.IntensityCases` | pyre.py:96-105 | read rule: rows under the heat-source row `START_HEIGHT - 1` read 0; the heat-source row reads `START_INTENSITY` exactly inside `[START_OFFSET, width - START_OFFSET]`, before any column check; out-of-range columns read 0; other reads are at most MAX and fail exactly when the row index is outside the list |
| `Propagation.RowMinusOneIsTopRow` | pyre.py:104-105 | with `START_HEIGHT <= -1`, a read of row -1 in a grid column reads the grid's top row, capped at MAX |
| `Propagation.NeighbourSum` | pyre.py:110 | the three-neighbour sum of `get_intensity`; stated by `NeighbourSumInGrid` and used by `GetIntensityCases` and `GetIntensityIsDraw` |
| `Propagation.FadeBase` | pyre.py:111 | the fade base is at least 1, and exactly 1 (no fade) for rows up to `START_HEIGHT` |
| `Propagation.GetIntensity` | pyre.py:109-113 | `get_intensity`; its behaviour is stated by `GetIntensityCases`, `GetIntensityIsDraw`, `EveryDrawReachable`, `BelowSourceIsZero`, `GetIntensityInRange` and `GetIntensityReadsRowBelow` |
| `Propagation.GetIntensityCases` | pyre.py:109-113 | the new intensity is at most MAX, and it exists exactly when the three reads succeed and their sum is at least -1 (else randint's range is empty) |
| `Propagation.NeighbourSumInGrid` | pyre.py:110 | in a well-shaped grid no neighbour read of any grid row leaves the list, row -1 included |
| `Propagation.BelowSourceIsZero` | pyre.py:109-113 | every cell below `START_HEIGHT` gets 0 whatever the grid and the draw |
| `Propagation.GetIntensityIsDraw` | pyre.py:110-113 | every result is a capped, attenuated draw from `[sum // 2, sum]` of the neighbour sum |
| `Propagation.EveryDrawReachable` | pyre.py:112-113 | every draw of `[sum // 2, sum]` is the outcome for some random number |
| `Propagation.GetIntensityInRange` | pyre.py:109-113 | with non-negative settings and stored values in [0, MAX], every grid cell gets a value in [0, MAX] without raising |
| `Propagation.ReadNonNegative` | pyre.py:96-105 | with non-negative settings and stored values, every successful read is non-negative |
| `Propagation.IntensityReadsOneRow` | pyre.py:96-105 | a read depends on the grid only through the row it names, and not at all for rows under `START_HEIGHT` |
| `Propagation.GetIntensityReadsRowBelow` | pyre.py:110 | a cell's new intensity depends on the grid only through row `i - 1` |
| `FramePass.Render` | pyre.py:130-134 | cell `(i, j)` is drawn at `x = j`, `y = height - i - 1` with its glyph and colour, and drawing fails exactly for intensities of -110 and below |
| `FramePass.Store` | pyre.py:135 | storing overwrites cell `(i, j)` and nothing else, keeping the grid's shape |
| `FramePass.CellStep` | pyre.py:129-134 | a visited cell's value is its new intensity and its write is that value's rendering |
| `FramePass.Sweep` | pyre.py:126-135 | the rest of a pass, for any per-cell rule, keeps the grid's shape and only appends to the writes made so far |
| `FramePass.SweepStops` | pyre.py:129-131 | an exception from `get_intensity`, `get_particle` or `get_color` at the current cell ends the pass there, with the grid and writes as they stand |
| `FramePass.SweepMovesOn` | pyre.py:129-135 | when all three calls succeed, the pass goes on from the next cell with the value stored and the write at `(height - i - 1, j)` appended |
| `FramePass.Pass` | pyre.py:125-135 | one pass keeps the grid's dimensions |
| `FramePass.SweepKeepsEarlierCells` | pyre.py:126-135 | the rest of a pass never changes a cell already visited |
| `FramePass.SweepWriteCount` | pyre.py:126-134 | the rest of a completed pass makes one write per remaining cell |
| `FramePass.SweepWritesEachCell` | pyre.py:126-135 | in the rest of a completed pass, write number `k*cols + l` shows cell `(k, l)` with its final stored value, at most MAX |
| `FramePass.SweepShowsCurrentCell` | pyre.py:129-135 | in the rest of a completed pass, the write made at the current cell shows that cell's final value |
| `FramePass.SweepDrawsOnScreen` | pyre.py:133-134 | every write lands at x in [0, width-2], y in [1, height-1] |
| `FramePass.SweepReadsSamePass` | pyre.py:107-135 | every remaining cell ends up satisfying the update rule against the grid left at the end of the pass |
| `FramePass.SweepKeepsRange` | pyre.py:126-135 | for any per-cell rule that succeeds with a value in [0, MAX] on grids with values in that range (`KeepsRange`), the rest of a pass over such a grid completes and keeps them there |
| `FramePass.FireRuleRenders` | pyre.py:129-134 | the fire's per-cell rule stores at most MAX and writes that value's glyph and colour at the flipped position |
| `FramePass.FireRuleDrawsOnScreen` | pyre.py:133-134 | the fire's per-cell rule writes every grid cell inside the screen's margins |
| `FramePass.FireRuleReadsRowsBelow` | pyre.py:103-110 | at row `k` (when `k >= 1` or `START_HEIGHT >= 0`), the fire's rule reads the grid only through the rows under `k` |
| `FramePass.FireRuleKeepsRange` | pyre.py:109-135 | with non-negative settings, the fire's rule succeeds with a value in [0, MAX] on every grid cell of a grid whose values are in that range |
| `FramePass.PassWritesEachCellOnce` | pyre.py:125-135 | a completed pass writes `rows*cols` times, each cell exactly once in visiting order, showing its stored value (at most MAX), and every write is on screen |
| `FramePass.SweepReadsUnvisitedRow` | pyre.py:126-135 | a row computed only from the top row, which the pass reaches later, holds what the rule gives on the grid the pass started from |
| `FramePass.UnvisitedRowMovesOn` | pyre.py:129-135 | the same, at a cell where the rule succeeds and the pass moves on |
| `FramePass.FireRuleReadsTopRow` | pyre.py:104-110 | with `START_HEIGHT <= -1`, the fire's rule at row 0 reads only the grid's top row ("row -1") |
| `FramePass.PassRowZeroReadsPreviousFrame` | pyre.py:104-135 | with `START_HEIGHT <= -1` and at least two grid rows, a completed pass leaves in row 0 what `get_intensity` gives on the previous frame's grid |
| `FramePass.PassReadsSamePass` | pyre.py:107-110 | in a completed pass, row `i` was computed from row `i - 1`'s values of the same pass, not the previous frame's (row 0 only when `START_HEIGHT >= 0`; otherwise see `PassRowZeroReadsPreviousFrame`) |
| `FramePass.PassZeroBelowSource` | pyre.py:97-113 | after a completed pass every row under `START_HEIGHT` holds 0, for any random draws |
| `FramePass.PassKeepsRange` | pyre.py:125-135 | with non-negative settings, stored intensities stay in [0, MAX] from frame to frame and no pass raises |
| `FramePass.SamePassDiffersFromPreviousFrame` | pyre.py:107-113 | with `START_HEIGHT` 0, no offset, start intensity 100, non-negative settings and the row-0 and row-1 facts about `attenuate` listed above (which the default scale of 1 meets), on a 2 x 1 grid with a cold bottom cell, the bottom cell gets 100 and the upper cell a positive value for any draws, where a previous-frame read would give 0 |
| `FramePass.BottomRowGetsSource` | pyre.py:98-113 | with `START_HEIGHT` 0, no offset and start intensity 100, every bottom cell of any screen width gets 100 for any grid and draw, when the fade and scale of row 0 keep draws of 100 or more at 100 or more (as `Unfaded` does) |
| `FramePass.RowAboveReadsBelow` | pyre.py:103-113 | with fade and scale taken as 1 (`Unfaded`), the upper cell of a 2 x 1 grid gets from half to all of the bottom cell's value |
| `FireState.ZeroGrid` | pyre.py:93 | the new grid has `rows` rows of `cols` zeros |
| `FireState.Fire.constructor` | pyre.py:30-52 | a new fire keeps its settings and the screen size and starts from a zero grid matching the screen |
| `FireState.Fire.Resize` | pyre.py:91-93 | the grid becomes `(height-1) x (width-1)` zeros, and is empty exactly when the screen has at most one line or column |
| `FireState.Fire.Redraw` | pyre.py:125-135 | one frame leaves the grid and writes `Pass` gives for the old grid, keeping the dimensions; each cell is written once and drawn on screen; non-negative settings keep values in [0, MAX] |
| `FireState.Fire.RedrawRow` | pyre.py:127-135 | the inner loop over row `i` leaves the grid and writes at which the pass goes on from row `i + 1`, or ends the pass with the exception raised |
| `FireState.Fire.RedrawCell` | pyre.py:129-135 | one iteration of the inner loop at cell `(i, j)` moves the pass on to `(i, j + 1)`, or ends it with the exception raised |

## Left out

- Terminal I/O is not modelled (pyre.py:33, 37-44, 134, 137, 148-149). This covers setting up curses, the colour-pair table, `addch` (kept only as the recorded writes), `getch`, `refresh` and `timeout`. The screen size from `getmaxyx` (pyre.py:92) is a parameter of `Resize`. `GetColor` returns the ramp's colour number, not the `color_pair` attribute the curses call makes of it.
- Audio is not modelled (pyre.py:8-23, 53-89): backend probing, music playback, the `play_fire` thread, its lock and `shutdown`. It is background I/O and threading.
- Key handling and volume are not modelled (pyre.py:137-147). Volume steps are floating-point values compared with `!=`, and the quit branch calls `end_session` as a bare name. Neither is integer logic.
- `end_session`, argument parsing and the main loop are not modelled (pyre.py:31-36, 152-167). They are process plumbing. The settings arrive already parsed, as `Settings`.
- Frame pacing with `time.sleep` and the `speed` setting is not modelled (pyre.py:31, 150).
- The fade `d ** 0.3` and the `scale` multiplication in `get_intensity` are floating-point. They are the abstract `Settings.attenuate`. No contract says what that function computes beyond the facts listed above, each a precondition of the lemmas named there; `RowAboveReadsBelow` alone uses `Unfaded`, which no program setting gives. A non-finite scale (`-s inf` or `-s nan`) makes `int(new_intensity)` at pyre.py:113 raise `OverflowError` or `ValueError`; the total integer function `attenuate` cannot express that failure.
- The random generator's algorithm is not modelled. Each cell's draw is chosen by a supplied natural number.
- `Palette.Quantize`: `x * N / 100` is the correctly rounded float of the exact quotient, and `int()` truncates that float. Truncating division matches this exactly as long as the rounding cannot cross an integer. That holds whenever `|x * N| < 2^53`, so for every intensity above -2^53 / 30.
- `Resize` is called only by the constructor, as in the source. The source never resizes again when the terminal changes size.

=== FILE: fire_state.dfy ===
/**
 * The fire itself: its start-up settings, the screen size, and the grid of
 * the previous frame's intensities, which `Redraw` overwrites cell by cell.
 */
module FireState {
  import opened Wrappers
  import opened Runtime
  import opened Palette
  import opened Propagation
  import opened FramePass

  /** A grid of `rows` rows of `cols` zeros. */
  function ZeroGrid(rows: nat, cols: nat): (g: seq<seq<int>>)
    ensures Shaped(g, rows, cols) && InRange(g)
    ensures forall i, j :: 0 <= i < rows && 0 <= j < cols ==> g[i][j] == 0
  {
    seq(rows, _ => seq(cols, _ => 0))
  }

  class Fire {
    const settings: Settings
    var height: int
    var width: int
    var prevFire: seq<seq<int>>

    /** The grid matches the screen, less a one-cell margin in each direction. */
    ghost predicate Valid()
      reads this
    {
      Shaped(prevFire, GridSize(height), GridSize(width))
    }

    /** A fire for a screen of the given size, starting cold. */
    constructor (settings: Settings, screenHeight: nat, screenWidth: nat)
      ensures Valid() && InRange(prevFire)
      ensures this.settings == settings
      ensures height == screenHeight && width == screenWidth
      ensures prevFire == ZeroGrid(GridSize(screenHeight), GridSize(screenWidth))
    {
      this.settings := settings;
      height, width, prevFire := 0, 0, [];
      new;
      Resize(screenHeight, screenWidth);
    }

    /**
     * Takes the screen size and starts a cold grid of (height - 1) rows of
     * (width - 1) cells, which is empty when the screen has at most one line
     * or one column.
     */
    method Resize(screenHeight: nat, screenWidth: nat)
      modifies this
      ensures Valid() && InRange(prevFire)
      ensures height == screenHeight && width == screenWidth
      ensures prevFire == ZeroGrid(GridSize(screenHeight), GridSize(screenWidth))
      ensures (prevFire == [] || prevFire[0] == []) <==> (screenHeight <= 1 || screenWidth <= 1)
    {
      height, width := screenHeight, screenWidth;
      prevFire := ZeroGrid(GridSize(height), GridSize(width));
    }

    /**
     * One frame: every cell, bottom row first and left to right, gets a new
     * intensity, is drawn with its glyph and colour at the flipped screen
     * position, and is stored back into the grid. Returns the screen writes
     * and the exception that stopped the frame, if one did.
     */
    method Redraw(noise: Noise) returns (writes: seq<ScreenWrite>, failure: Option<Exception>)
      requires Valid()
      modifies this
      ensures Valid() && height == old(height) && width == old(width)
      ensures Frame(prevFire, writes, failure) == Pass(settings, height, width, old(prevFire), noise)
      ensures failure.None? ==> |writes| == GridSize(height) * GridSize(width)
      ensures failure.None? ==> forall i, j :: 0 <= i < GridSize(height) && 0 <= j < GridSize(width) ==>
        ShowsCell(Frame(prevFire, writes, failure), RenderOn(height), GridSize(width), i, j)
      ensures forall k :: 0 <= k < |writes| ==> OnScreen(height, width, writes[k])
      ensures NonNegative(settings) && old(InRange(prevFire)) ==> failure.None? && InRange(prevFire)
    {
      ghost var start := prevFire;
      PassWritesEachCellOnce(settings, height, width, start, noise);
      if NonNegative(settings) && InRange(start) {
        PassKeepsRange(settings, height, width, start, noise);
      }
      writes, failure := [], None;
      var i := 0;
      while i < height - 1
        invariant 0 <= i <= GridSize(height) && failure.None?
        invariant height == old(height) && width == old(width)
        invariant Valid()
        invariant Sweep(FireRule(settings, height, width, noise), GridSize(height), GridSize(width), prevFire, writes, i, 0)
               == Pass(settings, height, width, start, noise)
      {
        writes, failure := RedrawRow(noise, i, writes);
        if failure.Some? {
          return;
        }
        i := i + 1;
      }
      assert Sweep(FireRule(settings, height, width, noise), GridSize(height), GridSize(width), prevFire, writes, i, 0)
          == Frame(prevFire, writes, None);
    }

    /**
     * Row i of a frame: each cell from left to right gets a new intensity,
     * is drawn and is stored, until one of the three calls raises. Appends
     * the row's writes to `before`; the pass then goes on from the next row,
     * or has ended with the exception.
     */
    method RedrawRow(noise: Noise, i: nat, before: seq<ScreenWrite>) returns (writes: seq<ScreenWrite>, failure: Option<Exception>)
      requires Valid() && i < GridSize(height)
      modifies this
      ensures Valid() && height == old(height) && width == old(width)
      ensures failure.None? ==>
        Sweep(FireRule(settings, height, width, noise), GridSize(height), GridSize(width), prevFire, writes, i + 1, 0)
        == Sweep(FireRule(settings, height, width, noise), GridSize(height), GridSize(width), old(prevFire), before, i, 0)
      ensures failure.Some? ==>
        Frame(prevFire, writes, failure)
        == Sweep(FireRule(settings, height, width, noise), GridSize(height), GridSize(width), old(prevFire), before, i, 0)
    {
      writes, failure := before, None;
      var j := 0;
      while j < width - 1
        invariant 0 <= j <= GridSize(width) && failure.None?
        invariant height == old(height) && width == old(width)
        invariant Valid()
        invariant Sweep(FireRule(settings, height, width, noise), GridSize(height), GridSize(width), prevFire, writes, i, j)
               == Sweep(FireRule(settings, height, width, noise), GridSize(height), GridSize(width), old(prevFire), before, i, 0)
      {
        writes, failure := RedrawCell(noise, i, j, writes);
        if failure.Some? {
          return;
        }
        j := j + 1;
      }
    }

    /**
     * Cell (i, j) of a frame: its new intensity, glyph and colour, in that
     * order, any of which may raise; then the write at the flipped screen
     * position and the store back into the grid.
     */
    method RedrawCell(noise: Noise, i: nat, j: nat, before: seq<ScreenWrite>) returns (writes: seq<ScreenWrite>, failure: Option<Exception>)
      requires Valid() && i < GridSize(height) && j < GridSize(width)
      modifies this
      ensures Valid() && height == old(height) && width == old(width)
      ensures failure.None? ==>
        Sweep(FireRule(settings, height, width, noise), GridSize(height), GridSize(width), prevFire, writes, i, j + 1)
        == Sweep(FireRule(settings, height, width, noise), GridSize(height), GridSize(width), old(prevFire), before, i, j)
      ensures failure.Some? ==>
        Frame(prevFire, writes, failure)
        == Sweep(FireRule(settings, height, width, noise), GridSize(height), GridSize(width), old(prevFire), before, i, j)
    {
      SweepStops(settings, height, width, prevFire, before, i, j, noise);
      writes, failure := before, None;
      var intensity := GetIntensity(settings, width, prevFire, i, j, noise(i, j));
      if intensity.Err? {
        failure := Some(intensity.error);
        return;
      }
      var particle := GetParticle(intensity.value);
      if particle.Err? {
        failure := Some(particle.error);
        return;
      }
      var color := GetColor(intensity.value);
      if color.Err? {
        failure := Some(color.error);
        return;
      }
      SweepMovesOn(settings, height, width, prevFire, before, i, j, noise, intensity.value, particle.value, color.value);
      var x, y := j, height - i - 1;
      writes := writes + [ScreenWrite(y, x, particle.value, color.value)];
      prevFire := Store(prevFire, i, j, intensity.value);
    }
  }
}

=== FILE: frame_pass.dfy ===
/**
 * One full pass of the fire over its grid, as a function: cells are visited
 * row by row from the bottom (row 0) up and, within a row, left to right;
 * each gets a new intensity, which is drawn on the screen and stored back
 * into the grid before the next cell is visited. An exception stops the
 * pass where it is raised.
 */
module FramePass {
  import opened Wrappers
  import opened Runtime
  import opened Palette
  import opened Propagation

  /** One character put on the screen: at line y, column x, a glyph in a colour of the ramp. */
  datatype ScreenWrite = ScreenWrite(y: int, x: int, glyph: char, color: int)

  /** Where a pass ended: the grid and the screen writes made so far, and the exception that stopped it, if any. */
  datatype Frame = Frame(grid: seq<seq<int>>, writes: seq<ScreenWrite>, failure: Option<Exception>)

  /** Random numbers for the draws: `noise(i, j)` chooses the draw of cell (i, j). */
  type Noise = (int, int) -> nat

  /**
   * What cell (i, j) with the given intensity puts on a screen `height` lines
   * tall: the rows are flipped, so that row 0 is the line just above the
   * bottom margin.
   */
  function Render(height: int, i: int, j: int, intensity: int): (r: Result<ScreenWrite, Exception>)
    ensures r.Ok? ==> r.value.y == height - i - 1 && r.value.x == j
    ensures r.Ok? ==> GetParticle(intensity) == Ok(r.value.glyph) && GetColor(intensity) == Ok(r.value.color)
    ensures r.Ok? <==> intensity > -110
  {
    var glyph :- GetParticle(intensity);
    var color :- GetColor(intensity);
    Ok(ScreenWrite(height - i - 1, j, glyph, color))
  }

  /** The write lands inside the screen, off the bottom margin and the last column. */
  ghost predicate OnScreen(height: int, width: int, w: ScreenWrite) {
    0 <= w.x < width - 1 && 1 <= w.y < height
  }

  /** The grid with cell (i, j) overwritten by v. */
  function Store(g: seq<seq<int>>, i: int, j: int, v: int): (g': seq<seq<int>>)
    requires 0 <= i < |g| && 0 <= j < |g[i]|
    ensures |g'| == |g| && forall k :: 0 <= k < |g| ==> |g'[k]| == |g[k]|
    ensures g'[i][j] == v
    ensures forall k :: 0 <= k < |g| && k != i ==> g'[k] == g[k]
    ensures forall l :: 0 <= l < |g[i]| && l != j ==> g'[i][l] == g[i][l]
  {
    g[i := g[i][j := v]]
  }

  /** Visiting one cell: its new intensity and what it puts on the screen. */
  function CellStep(s: Settings, height: int, width: int, g: seq<seq<int>>, i: int, j: int, raw: nat)
    : (r: Result<(int, ScreenWrite), Exception>)
    ensures r.Ok? ==> GetIntensity(s, width, g, i, j, raw) == Ok(r.value.0)
    ensures r.Ok? ==> Render(height, i, j, r.value.0) == Ok(r.value.1)
  {
    var v :- GetIntensity(s, width, g, i, j, raw);
    var w :- Render(height, i, j, v);
    Ok((v, w))
  }

  /**
   * What a pass does at a cell: given the grid as it stands and the cell
   * (i, j), the intensity to store there and the write to make, or the
   * exception that stops the pass.
   */
  type Rule = (seq<seq<int>>, int, int) -> Result<(int, ScreenWrite), Exception>

  /** The fire's own rule: `CellStep` with the cell's own random number. */
  function FireRule(s: Settings, height: int, width: int, noise: Noise): Rule {
    (g, i, j) => CellStep(s, height, width, g, i, j, noise(i, j))
  }

  /**
   * The rest of a pass over a grid of `rows` rows of `cols` cells that has
   * reached cell (i, j) with grid g, having written `out` to the screen so
   * far: cells are visited row by row, each row left to right, and each
   * value is stored before the next cell is visited.
   */
  function Sweep(rule: Rule, rows: nat, cols: nat, g: seq<seq<int>>, out: seq<ScreenWrite>, i: nat, j: nat): (f: Frame)
    requires Shaped(g, rows, cols)
    requires i <= rows && j <= cols
    ensures Shaped(f.grid, rows, cols)
    ensures |out| <= |f.writes| && f.writes[..|out|] == out
    decreases rows - i, cols - j
  {
    if i == rows then Frame(g, out, None)
    else if j == cols then Sweep(rule, rows, cols, g, out, i + 1, 0)
    else
      match rule(g, i, j)
      case Err(e) => Frame(g, out, Some(e))
      case Ok((v, w)) => Sweep(rule, rows, cols, Store(g, i, j, v), out + [w], i, j + 1)
  }

  /** One whole pass of the fire over the grid g of a screen `height` x `width`. */
  function Pass(s: Settings, height: int, width: int, g: seq<seq<int>>, noise: Noise): (f: Frame)
    requires Shaped(g, GridSize(height), GridSize(width))
    ensures Shaped(f.grid, GridSize(height), GridSize(width))
  {
    Sweep(FireRule(s, height, width, noise), GridSize(height), GridSize(width), g, [], 0, 0)
  }

  /**
   * Visiting cell (i, j) in terms of the three calls made there: the first
   * of them to raise ends the pass there.
   */
  lemma SweepStops(s: Settings, height: int, width: int, g: seq<seq<int>>, out: seq<ScreenWrite>,
                   i: nat, j: nat, noise: Noise)
    requires Shaped(g, GridSize(height), GridSize(width))
    requires i < GridSize(height) && j < GridSize(width)
    ensures GetIntensity(s, width, g, i, j, noise(i, j)).Err? ==>
      Sweep(FireRule(s, height, width, noise), GridSize(height), GridSize(width), g, out, i, j)
      == Frame(g, out, Some(GetIntensity(s, width, g, i, j, noise(i, j)).error))
    ensures GetIntensity(s, width, g, i, j, noise(i, j)).Ok? ==>
      var v := GetIntensity(s, width, g, i, j, noise(i, j)).value;
      && (GetParticle(v).Err? ==>
            Sweep(FireRule(s, height, width, noise), GridSize(height), GridSize(width), g, out, i, j)
            == Frame(g, out, Some(GetParticle(v).error)))
      && (GetParticle(v).Ok? && GetColor(v).Err? ==>
            Sweep(FireRule(s, height, width, noise), GridSize(height), GridSize(width), g, out, i, j)
            == Frame(g, out, Some(GetColor(v).error)))
  {
    assert FireRule(s, height, width, noise)(g, i, j) == CellStep(s, height, width, g, i, j, noise(i, j));
  }

  /**
   * When none of the three calls at cell (i, j) raises, the pass goes on
   * from the next cell with the new intensity stored and the cell's glyph
   * and colour written at its flipped screen position.
   */
  lemma SweepMovesOn(s: Settings, height: int, width: int, g: seq<seq<int>>, out: seq<ScreenWrite>,
                     i: nat, j: nat, noise: Noise, v: int, glyph: char, color: int)
    requires Shaped(g, GridSize(height), GridSize(width))
    requires i < GridSize(height) && j < GridSize(width)
    requires GetIntensity(s, width, g, i, j, noise(i, j)) == Ok(v)
    requires GetParticle(v) == Ok(glyph) && GetColor(v) == Ok(color)
    ensures Sweep(FireRule(s, height, width, noise), GridSize(height), GridSize(width), g, out, i, j)
         == Sweep(FireRule(s, height, width, noise), GridSize(height), GridSize(width), Store(g, i, j, v),
                  out + [ScreenWrite(height - i - 1, j, glyph, color)], i, j + 1)
  {
    assert FireRule(s, height, width, noise)(g, i, j) == CellStep(s, height, width, g, i, j, noise(i, j));
  }

  /** Cell (k, l) is visited before cell (i, j). */
  predicate Before(k: int, l: int, i: int, j: int) {
    k < i || (k == i && l < j)
  }

  /** The rest of a pass never changes a cell visited before the point it starts from. */
  lemma {:induction false} SweepKeepsEarlierCells(rule: Rule, rows: nat, cols: nat, g: seq<seq<int>>,
                                                  out: seq<ScreenWrite>, i: nat, j: nat)
    requires Shaped(g, rows, cols)
    requires i <= rows && j <= cols
    ensures forall k :: 0 <= k < i ==> Sweep(rule, rows, cols, g, out, i, j).grid[k] == g[k]
    ensures i < rows ==> forall l :: 0 <= l < j ==> Sweep(rule, rows, cols, g, out, i, j).grid[i][l] == g[i][l]
    decreases rows - i, cols - j
  {
    var f := Sweep(rule, rows, cols, g, out, i, j);
    if i == rows {
    } else if j == cols {
      assert f == Sweep(rule, rows, cols, g, out, i + 1, 0);
      SweepKeepsEarlierCells(rule, rows, cols, g, out, i + 1, 0);
    } else if rule(g, i, j).Ok? {
      var (v, w) := rule(g, i, j).value;
      var g' := Store(g, i, j, v);
      assert f == Sweep(rule, rows, cols, g', out + [w], i, j + 1);
      SweepKeepsEarlierCells(rule, rows, cols, g', out + [w], i, j + 1);
    }
  }

  lemma CellNumberBound(k: nat, l: nat, rows: nat, cols: nat)
    requires k < rows && l < cols
    ensures k * cols + l < rows * cols
  {
    assert k * cols + l < (k + 1) * cols;
    assert (k + 1) * cols <= rows * cols;
  }

  lemma NextRowStart(i: nat, cols: nat)
    ensures i * cols + cols == (i + 1) * cols
  {
  }

  /** A pass that completes from cell (i, j) makes one write for each cell from there on. */
  lemma {:induction false} SweepWriteCount(rule: Rule, rows: nat, cols: nat, g: seq<seq<int>>,
                                           out: seq<ScreenWrite>, i: nat, j: nat)
    requires Shaped(g, rows, cols)
    requires i <= rows && j <= cols && (i < rows || j == 0)
    requires |out| == i * cols + j
    ensures Sweep(rule, rows, cols, g, out, i, j).failure.None? ==> |Sweep(rule, rows, cols, g, out, i, j).writes| == rows * cols
    decreases rows - i, cols - j
  {
    var f := Sweep(rule, rows, cols, g, out, i, j);
    if i == rows {
    } else if j == cols {
      NextRowStart(i, cols);
      assert f == Sweep(rule, rows, cols, g, out, i + 1, 0);
      SweepWriteCount(rule, rows, cols, g, out, i + 1, 0);
    } else if rule(g, i, j).Ok? {
      var (v, w) := rule(g, i, j).value;
      var g' := Store(g, i, j, v);
      assert f == Sweep(rule, rows, cols, g', out + [w], i, j + 1);
      SweepWriteCount(rule, rows, cols, g', out + [w], i, j + 1);
    }
  }

  /** How cell (i, j) holding intensity v is drawn, or the exception drawing it raises. */
  type Renderer = (int, int, int) -> Result<ScreenWrite, Exception>

  /** The fire's own drawing, on a screen `height` lines tall. */
  function RenderOn(height: int): Renderer {
    (i, j, v) => Render(height, i, j, v)
  }

  /** Every value the rule gives is at most MAX_INTENSITY, and its write is how `render` draws that value. */
  ghost predicate Renders(rule: Rule, render: Renderer) {
    forall g, i, j :: rule(g, i, j).Ok? ==>
      && render(i, j, rule(g, i, j).value.0) == Ok(rule(g, i, j).value.1)
      && rule(g, i, j).value.0 <= MAX_INTENSITY
  }

  /** Every write the rule makes for a grid cell lands on the screen inside its margins. */
  ghost predicate DrawsOnScreen(rule: Rule, height: int, width: int) {
    forall g, i, j :: 0 <= i < GridSize(height) && 0 <= j < GridSize(width) && rule(g, i, j).Ok? ==>
      OnScreen(height, width, rule(g, i, j).value.1)
  }

  /**
   * Write number k * cols + l of the frame shows cell (k, l) with the
   * intensity stored there, and that intensity is at most MAX_INTENSITY.
   */
  ghost predicate ShowsCell(f: Frame, render: Renderer, cols: int, k: int, l: int) {
    && 0 <= k < |f.grid| && 0 <= l < |f.grid[k]|
    && 0 <= k * cols + l < |f.writes|
    && render(k, l, f.grid[k][l]) == Ok(f.writes[k * cols + l])
    && f.grid[k][l] <= MAX_INTENSITY
  }

  /**
   * A pass that completes from cell (i, j) writes each later cell exactly
   * once, in visiting order: the write with number k * cols + l shows cell
   * (k, l) with the intensity finally stored there.
   */
  lemma {:induction false} SweepWritesEachCell(rule: Rule, render: Renderer, rows: nat, cols: nat, g: seq<seq<int>>,
                                               out: seq<ScreenWrite>, i: nat, j: nat)
    requires Renders(rule, render)
    requires Shaped(g, rows, cols)
    requires i <= rows && j <= cols && (i < rows || j == 0)
    requires |out| == i * cols + j
    ensures Sweep(rule, rows, cols, g, out, i, j).failure.None? ==>
      forall k, l :: 0 <= k < rows && 0 <= l < cols && !Before(k, l, i, j) ==>
        ShowsCell(Sweep(rule, rows, cols, g, out, i, j), render, cols, k, l)
    decreases rows - i, cols - j
  {
    var f := Sweep(rule, rows, cols, g, out, i, j);
    if i == rows {
    } else if j == cols {
      NextRowStart(i, cols);
      assert f == Sweep(rule, rows, cols, g, out, i + 1, 0);
      SweepWritesEachCell(rule, render, rows, cols, g, out, i + 1, 0);
      forall k, l | 0 <= k < rows && 0 <= l < cols && !Before(k, l, i, j) && f.failure.None?
        ensures ShowsCell(f, render, cols, k, l)
      {
        assert !Before(k, l, i + 1, 0);
      }
    } else if rule(g, i, j).Ok? {
      var (v, w) := rule(g, i, j).value;
      var g' := Store(g, i, j, v);
      assert f == Sweep(rule, rows, cols, g', out + [w], i, j + 1);
      SweepWritesEachCell(rule, render, rows, cols, g', out + [w], i, j + 1);
      SweepShowsCurrentCell(rule, render, rows, cols, g, out, i, j);
      forall k, l | 0 <= k < rows && 0 <= l < cols && !Before(k, l, i, j) && f.failure.None?
        ensures ShowsCell(f, render, cols, k, l)
      {
        if k != i || l != j {
          assert !Before(k, l, i, j + 1);
        }
      }
    }
  }

  /** In a pass that completes from cell (i, j), write number i * cols + j shows that cell. */
  lemma SweepShowsCurrentCell(rule: Rule, render: Renderer, rows: nat, cols: nat, g: seq<seq<int>>,
                              out: seq<ScreenWrite>, i: nat, j: nat)
    requires Renders(rule, render)
    requires Shaped(g, rows, cols)
    requires i < rows && j < cols && |out| == i * cols + j
    requires rule(g, i, j).Ok?
    ensures Sweep(rule, rows, cols, g, out, i, j).failure.None? ==> ShowsCell(Sweep(rule, rows, cols, g, out, i, j), render, cols, i, j)
  {
    var f := Sweep(rule, rows, cols, g, out, i, j);
    var (v, w) := rule(g, i, j).value;
    var g' := Store(g, i, j, v);
    assert f == Sweep(rule, rows, cols, g', out + [w], i, j + 1);
    if f.failure.None? {
      SweepKeepsEarlierCells(rule, rows, cols, g', out + [w], i, j + 1);
      CellNumberBound(i, j, rows, cols);
      assert f.writes[..|out| + 1] == out + [w];
      assert f.writes[i * cols + j] == w;
      assert f.grid[i][j] == v;
    }
  }

  /** Every write of a pass, complete or not, lands on the screen inside its margins. */
  lemma {:induction false} SweepDrawsOnScreen(rule: Rule, height: int, width: int, g: seq<seq<int>>,
                                              out: seq<ScreenWrite>, i: nat, j: nat)
    requires DrawsOnScreen(rule, height, width)
    requires Shaped(g, GridSize(height), GridSize(width))
    requires i <= GridSize(height) && j <= GridSize(width)
    requires forall k :: 0 <= k < |out| ==> OnScreen(height, width, out[k])
    ensures forall k :: 0 <= k < |Sweep(rule, GridSize(height), GridSize(width), g, out, i, j).writes| ==>
      OnScreen(height, width, Sweep(rule, GridSize(height), GridSize(width), g, out, i, j).writes[k])
    decreases GridSize(height) - i, GridSize(width) - j
  {
    var rows, cols := GridSize(height), GridSize(width);
    var f := Sweep(rule, rows, cols, g, out, i, j);
    if i == rows {
    } else if j == cols {
      assert f == Sweep(rule, rows, cols, g, out, i + 1, 0);
      SweepDrawsOnScreen(rule, height, width, g, out, i + 1, 0);
    } else if rule(g, i, j).Ok? {
      var (v, w) := rule(g, i, j).value;
      var g' := Store(g, i, j, v);
      assert f == Sweep(rule, rows, cols, g', out + [w], i, j + 1);
      assert OnScreen(height, width, w);
      SweepDrawsOnScreen(rule, height, width, g', out + [w], i, j + 1);
    }
  }

  /** At row k the rule reads the grid only through the rows below k. */
  ghost predicate ReadsRowsBelow(rule: Rule, k: int) {
    forall g, g', l :: 0 <= k <= |g| == |g'| && g[..k] == g'[..k] ==> rule(g, k, l) == rule(g', k, l)
  }

  /**
   * The single grid is not double-buffered: in a completed pass, each cell
   * whose row the rule computes from the rows below it holds what the rule
   * gives when applied to the grid as it stands at the END of the pass, so
   * row k was computed from the values row k - 1 received earlier in the
   * same pass.
   */
  lemma {:induction false} SweepReadsSamePass(rule: Rule, rows: nat, cols: nat, g: seq<seq<int>>,
                                              out: seq<ScreenWrite>, i: nat, j: nat)
    requires Shaped(g, rows, cols)
    requires i <= rows && j <= cols
    ensures Sweep(rule, rows, cols, g, out, i, j).failure.None? ==>
      forall k, l :: 0 <= k < rows && 0 <= l < cols && !Before(k, l, i, j) && ReadsRowsBelow(rule, k) ==>
        && rule(Sweep(rule, rows, cols, g, out, i, j).grid, k, l).Ok?
        && rule(Sweep(rule, rows, cols, g, out, i, j).grid, k, l).value.0 == Sweep(rule, rows, cols, g, out, i, j).grid[k][l]
    decreases rows - i, cols - j
  {
    var f := Sweep(rule, rows, cols, g, out, i, j);
    if i == rows {
    } else if j == cols {
      assert f == Sweep(rule, rows, cols, g, out, i + 1, 0);
      SweepReadsSamePass(rule, rows, cols, g, out, i + 1, 0);
    } else if rule(g, i, j).Ok? {
      var (v, w) := rule(g, i, j).value;
      var g' := Store(g, i, j, v);
      assert f == Sweep(rule, rows, cols, g', out + [w], i, j + 1);
      SweepReadsSamePass(rule, rows, cols, g', out + [w], i, j + 1);
      SweepKeepsEarlierCells(rule, rows, cols, g', out + [w], i, j + 1);
      if f.failure.None? && ReadsRowsBelow(rule, i) {
        assert f.grid[i][j] == v;
        assert f.grid[..i] == g[..i];
        assert rule(f.grid, i, j) == rule(g, i, j);
      }
    }
  }

  /** At row k the rule reads a grid of r + 1 rows only through its top row, r. */
  ghost predicate ReadsOnlyRow(rule: Rule, k: int, r: int) {
    forall g, g', l :: 0 <= r && |g| == |g'| == r + 1 && g[r] == g'[r] ==> rule(g, k, l) == rule(g', k, l)
  }

  /**
   * A row k that the rule computes from the top row alone, which the pass
   * reaches only later, is computed from the top row as the pass found it:
   * in a completed pass each remaining cell of row k holds what the rule
   * gives on the grid the pass started from.
   */
  lemma {:induction false} SweepReadsUnvisitedRow(rule: Rule, rows: nat, cols: nat, g: seq<seq<int>>,
                                                  out: seq<ScreenWrite>, i: nat, j: nat, k: int, r: int)
    requires Shaped(g, rows, cols)
    requires i <= rows && j <= cols
    requires 0 <= k < r == rows - 1 && ReadsOnlyRow(rule, k, r)
    ensures Sweep(rule, rows, cols, g, out, i, j).failure.None? ==>
      forall l :: 0 <= l < cols && !Before(k, l, i, j) ==>
        && rule(g, k, l).Ok?
        && rule(g, k, l).value.0 == Sweep(rule, rows, cols, g, out, i, j).grid[k][l]
    decreases rows - i, cols - j, 1
  {
    var f := Sweep(rule, rows, cols, g, out, i, j);
    if i == rows {
    } else if j == cols {
      assert f == Sweep(rule, rows, cols, g, out, i + 1, 0);
      SweepReadsUnvisitedRow(rule, rows, cols, g, out, i + 1, 0, k, r);
      forall l | 0 <= l < cols && !Before(k, l, i, j) && f.failure.None?
        ensures rule(g, k, l).Ok? && rule(g, k, l).value.0 == f.grid[k][l]
      {
        assert !Before(k, l, i + 1, 0);
      }
    } else if rule(g, i, j).Ok? {
      UnvisitedRowMovesOn(rule, rows, cols, g, out, i, j, k, r);
    }
  }

  /** The step of `SweepReadsUnvisitedRow` at a cell where the rule succeeds. */
  lemma {:induction false} UnvisitedRowMovesOn(rule: Rule, rows: nat, cols: nat, g: seq<seq<int>>,
                                               out: seq<ScreenWrite>, i: nat, j: nat, k: int, r: int)
    requires Shaped(g, rows, cols)
    requires i < rows && j < cols && rule(g, i, j).Ok?
    requires 0 <= k < r == rows - 1 && ReadsOnlyRow(rule, k, r)
    ensures Sweep(rule, rows, cols, g, out, i, j).failure.None? ==>
      forall l :: 0 <= l < cols && !Before(k, l, i, j) ==>
        && rule(g, k, l).Ok?
        && rule(g, k, l).value.0 == Sweep(rule, rows, cols, g, out, i, j).grid[k][l]
    decreases rows - i, cols - j, 0
  {
    var f := Sweep(rule, rows, cols, g, out, i, j);
    var (v, w) := rule(g, i, j).value;
    var g' := Store(g, i, j, v);
    assert f == Sweep(rule, rows, cols, g', out + [w], i, j + 1);
    SweepReadsUnvisitedRow(rule, rows, cols, g', out + [w], i, j + 1, k, r);
    if f.failure.None? && i <= k {
      SweepKeepsEarlierCells(rule, rows, cols, g', out + [w], i, j + 1);
      assert g'[r] == g[r];
      forall l | 0 <= l < cols && !Before(k, l, i, j)
        ensures rule(g, k, l).Ok? && rule(g, k, l).value.0 == f.grid[k][l]
      {
        assert rule(g', k, l) == rule(g, k, l);
        if k != i || l != j {
          assert !Before(k, l, i, j + 1);
        }
      }
    }
  }

  /** On a grid of the given shape with every value in [0, MAX_INTENSITY], the rule succeeds with a value in that range. */
  ghost predicate KeepsRange(rule: Rule, rows: int, cols: int) {
    forall g, i, j :: Shaped(g, rows, cols) && InRange(g) && 0 <= i < rows && 0 <= j < cols ==>
      rule(g, i, j).Ok? && 0 <= rule(g, i, j).value.0 <= MAX_INTENSITY
  }

  /** A pass from cell (i, j) over values in [0, MAX_INTENSITY] with a rule that keeps them there completes and leaves them there. */
  lemma {:induction false} SweepKeepsRange(rule: Rule, rows: nat, cols: nat, g: seq<seq<int>>,
                                           out: seq<ScreenWrite>, i: nat, j: nat)
    requires KeepsRange(rule, rows, cols)
    requires Shaped(g, rows, cols) && InRange(g)
    requires i <= rows && j <= cols
    ensures Sweep(rule, rows, cols, g, out, i, j).failure.None?
    ensures InRange(Sweep(rule, rows, cols, g, out, i, j).grid)
    decreases rows - i, cols - j
  {
    var f := Sweep(rule, rows, cols, g, out, i, j);
    if i == rows {
    } else if j == cols {
      assert f == Sweep(rule, rows, cols, g, out, i + 1, 0);
      SweepKeepsRange(rule, rows, cols, g, out, i + 1, 0);
    } else {
      assert rule(g, i, j).Ok?;
      var (v, w) := rule(g, i, j).value;
      var g' := Store(g, i, j, v);
      assert InRange(g');
      assert f == Sweep(rule, rows, cols, g', out + [w], i, j + 1);
      SweepKeepsRange(rule, rows, cols, g', out + [w], i, j + 1);
    }
  }

  /** The fire's rule stores values of at most MAX_INTENSITY and writes their rendering. */
  lemma FireRuleRenders(s: Settings, height: int, width: int, noise: Noise)
    ensures Renders(FireRule(s, height, width, noise), RenderOn(height))
  {
    var rule := FireRule(s, height, width, noise);
    forall g, i, j | rule(g, i, j).Ok?
      ensures RenderOn(height)(i, j, rule(g, i, j).value.0) == Ok(rule(g, i, j).value.1)
      ensures rule(g, i, j).value.0 <= MAX_INTENSITY
    {
      assert rule(g, i, j) == CellStep(s, height, width, g, i, j, noise(i, j));
    }
  }

  /** The fire's rule draws every grid cell inside the screen's margins, rows flipped. */
  lemma FireRuleDrawsOnScreen(s: Settings, height: int, width: int, noise: Noise)
    ensures DrawsOnScreen(FireRule(s, height, width, noise), height, width)
  {
    var rule := FireRule(s, height, width, noise);
    forall g, i, j | 0 <= i < GridSize(height) && 0 <= j < GridSize(width) && rule(g, i, j).Ok?
      ensures OnScreen(height, width, rule(g, i, j).value.1)
    {
      assert rule(g, i, j) == CellStep(s, height, width, g, i, j, noise(i, j));
    }
  }

  /**
   * The fire's rule at row k reads only row k - 1, or nothing at all when
   * k - 1 lies under the heat source; only row 0 with START_HEIGHT <= -1
   * reads another row (row -1, the top one).
   */
  lemma FireRuleReadsRowsBelow(s: Settings, height: int, width: int, noise: Noise, k: int)
    requires k >= 1 || s.startHeight >= 0
    ensures ReadsRowsBelow(FireRule(s, height, width, noise), k)
  {
    var rule := FireRule(s, height, width, noise);
    forall g, g', l | 0 <= k <= |g| == |g'| && g[..k] == g'[..k]
      ensures rule(g, k, l) == rule(g', k, l)
    {
      if k >= 1 {
        assert g[k - 1] == g[..k][k - 1] == g'[..k][k - 1] == g'[k - 1];
      }
      GetIntensityReadsRowBelow(s, width, g, g', k, l, noise(k, l));
      assert rule(g, k, l) == CellStep(s, height, width, g, k, l, noise(k, l));
      assert rule(g', k, l) == CellStep(s, height, width, g', k, l, noise(k, l));
    }
  }

  /** With non-negative settings the fire's rule keeps intensities in [0, MAX_INTENSITY] and never raises. */
  lemma FireRuleKeepsRange(s: Settings, height: int, width: int, noise: Noise)
    requires NonNegative(s)
    ensures KeepsRange(FireRule(s, height, width, noise), GridSize(height), GridSize(width))
  {
    var rule := FireRule(s, height, width, noise);
    forall g, i, j | Shaped(g, GridSize(height), GridSize(width)) && InRange(g) && 0 <= i < GridSize(height) && 0 <= j < GridSize(width)
      ensures rule(g, i, j).Ok? && 0 <= rule(g, i, j).value.0 <= MAX_INTENSITY
    {
      GetIntensityInRange(s, width, g, i, j, noise(i, j));
      assert rule(g, i, j) == CellStep(s, height, width, g, i, j, noise(i, j));
    }
  }

  /**
   * A completed pass writes each grid cell exactly once: there are
   * rows * cols writes and write number k * cols + l shows cell (k, l) with
   * the intensity the pass stored there, at most MAX_INTENSITY. Complete or
   * not, every write lands at a column x in [0, width - 2] and a line y in
   * [1, height - 1].
   */
  lemma PassWritesEachCellOnce(s: Settings, height: int, width: int, g: seq<seq<int>>, noise: Noise)
    requires Shaped(g, GridSize(height), GridSize(width))
    ensures Pass(s, height, width, g, noise).failure.None? ==> |Pass(s, height, width, g, noise).writes| == GridSize(height) * GridSize(width)
    ensures Pass(s, height, width, g, noise).failure.None? ==>
      forall k, l :: 0 <= k < GridSize(height) && 0 <= l < GridSize(width) ==> ShowsCell(Pass(s, height, width, g, noise), RenderOn(height), GridSize(width), k, l)
    ensures forall k :: 0 <= k < |Pass(s, height, width, g, noise).writes| ==> OnScreen(height, width, Pass(s, height, width, g, noise).writes[k])
  {
    var rule := FireRule(s, height, width, noise);
    FireRuleRenders(s, height, width, noise);
    FireRuleDrawsOnScreen(s, height, width, noise);
    SweepWriteCount(rule, GridSize(height), GridSize(width), g, [], 0, 0);
    SweepWritesEachCell(rule, RenderOn(height), GridSize(height), GridSize(width), g, [], 0, 0);
    SweepDrawsOnScreen(rule, height, width, g, [], 0, 0);
  }

  /**
   * With START_HEIGHT <= -1 the fire's rule at row 0 reads only "row -1",
   * the top row of the grid.
   */
  lemma FireRuleReadsTopRow(s: Settings, height: int, width: int, noise: Noise, r: int)
    requires s.startHeight <= -1
    ensures ReadsOnlyRow(FireRule(s, height, width, noise), 0, r)
  {
    var rule := FireRule(s, height, width, noise);
    forall g, g', l | 0 <= r && |g| == |g'| == r + 1 && g[r] == g'[r]
      ensures rule(g, 0, l) == rule(g', 0, l)
    {
      assert Index(g, -1) == Index(g', -1);
      assert NeighbourSum(s, width, g, 0, l) == NeighbourSum(s, width, g', 0, l);
      assert rule(g, 0, l) == CellStep(s, height, width, g, 0, l, noise(0, l));
      assert rule(g', 0, l) == CellStep(s, height, width, g', 0, l, noise(0, l));
    }
  }

  /**
   * With START_HEIGHT <= -1 and at least two grid rows, row 0 reads the top
   * row before the pass reaches it: in a completed pass, row 0 holds what
   * the update rule gives on the previous frame's grid.
   */
  lemma PassRowZeroReadsPreviousFrame(s: Settings, height: int, width: int, g: seq<seq<int>>, noise: Noise)
    requires Shaped(g, GridSize(height), GridSize(width))
    requires s.startHeight <= -1 && GridSize(height) >= 2
    ensures Pass(s, height, width, g, noise).failure.None? ==>
      forall l :: 0 <= l < GridSize(width) ==>
        GetIntensity(s, width, g, 0, l, noise(0, l)) == Ok(Pass(s, height, width, g, noise).grid[0][l])
  {
    var rule := FireRule(s, height, width, noise);
    var rows, cols := GridSize(height), GridSize(width);
    FireRuleReadsTopRow(s, height, width, noise, rows - 1);
    SweepReadsUnvisitedRow(rule, rows, cols, g, [], 0, 0, 0, rows - 1);
    forall l | 0 <= l < cols && Pass(s, height, width, g, noise).failure.None?
      ensures GetIntensity(s, width, g, 0, l, noise(0, l)) == Ok(Pass(s, height, width, g, noise).grid[0][l])
    {
      assert !Before(0, l, 0, 0);
      assert rule(g, 0, l) == CellStep(s, height, width, g, 0, l, noise(0, l));
    }
  }

  /**
   * In a completed pass every cell satisfies the update rule against the
   * grid the pass leaves behind: row k reads the values written to row
   * k - 1 earlier in the same pass. Row 0 is included when
   * START_HEIGHT >= 0, so that it never reads the grid (see
   * `PassRowZeroReadsPreviousFrame` for the other case).
   */
  lemma PassReadsSamePass(s: Settings, height: int, width: int, g: seq<seq<int>>, noise: Noise)
    requires Shaped(g, GridSize(height), GridSize(width))
    ensures Pass(s, height, width, g, noise).failure.None? ==>
      forall k, l :: 0 <= k < GridSize(height) && 0 <= l < GridSize(width) && (k >= 1 || s.startHeight >= 0) ==>
        GetIntensity(s, width, Pass(s, height, width, g, noise).grid, k, l, noise(k, l)) == Ok(Pass(s, height, width, g, noise).grid[k][l])
  {
    var rule := FireRule(s, height, width, noise);
    var f := Pass(s, height, width, g, noise);
    SweepReadsSamePass(rule, GridSize(height), GridSize(width), g, [], 0, 0);
    forall k, l | 0 <= k < GridSize(height) && 0 <= l < GridSize(width) && (k >= 1 || s.startHeight >= 0) && f.failure.None?
      ensures GetIntensity(s, width, f.grid, k, l, noise(k, l)) == Ok(f.grid[k][l])
    {
      FireRuleReadsRowsBelow(s, height, width, noise, k);
      assert rule(f.grid, k, l) == CellStep(s, height, width, f.grid, k, l, noise(k, l));
    }
  }

  /** After a completed pass, every row under START_HEIGHT holds 0, whatever the random draws. */
  lemma PassZeroBelowSource(s: Settings, height: int, width: int, g: seq<seq<int>>, noise: Noise)
    requires Shaped(g, GridSize(height), GridSize(width))
    requires s.attenuate(1, 0) == 0
    ensures Pass(s, height, width, g, noise).failure.None? ==>
      forall k, l :: 0 <= k < GridSize(height) && k < s.startHeight && 0 <= l < GridSize(width) ==> Pass(s, height, width, g, noise).grid[k][l] == 0
  {
    PassReadsSamePass(s, height, width, g, noise);
    var f := Pass(s, height, width, g, noise);
    forall k, l | 0 <= k < GridSize(height) && k < s.startHeight && 0 <= l < GridSize(width) && f.failure.None?
      ensures f.grid[k][l] == 0
    {
      BelowSourceIsZero(s, width, f.grid, k, l, noise(k, l));
    }
  }

  /**
   * With non-negative settings, stored intensities stay in [0, MAX_INTENSITY]
   * from one frame to the next, and no pass raises.
   */
  lemma PassKeepsRange(s: Settings, height: int, width: int, g: seq<seq<int>>, noise: Noise)
    requires Shaped(g, GridSize(height), GridSize(width))
    requires NonNegative(s) && InRange(g)
    ensures Pass(s, height, width, g, noise).failure.None? && InRange(Pass(s, height, width, g, noise).grid)
  {
    FireRuleKeepsRange(s, height, width, noise);
    SweepKeepsRange(FireRule(s, height, width, noise), GridSize(height), GridSize(width), g, [], 0, 0);
  }

  /** Default settings (intensity 100, no offset, START_HEIGHT 0) with fade and scale taken as 1. */
  function Unfaded(): Settings {
    Settings(MAX_INTENSITY, 0, 0, (d, x) => x)
  }

  /**
   * On a 3 x 2 screen (a 2 x 1 grid) whose previous frame has a cold bottom
   * cell, a pass gives the cell above it a positive value, because it reads
   * the 100 the bottom cell received earlier in the same pass; computed from
   * the previous frame, as the comments beside the read rule describe, it
   * would get 0. This holds whatever the random draws, for START_HEIGHT 0,
   * no offset, start intensity 100 and any fade and scale that keep a draw
   * of 100 or more at 100 or more in row 0, map 0 to 0 in row 1 and keep
   * draws of 50 or more positive there. The default scale of 1 does all
   * three: int(50 / 2 ** 0.3) is 40.
   */
  lemma SamePassDiffersFromPreviousFrame(s: Settings, g0: seq<seq<int>>, noise: Noise)
    requires s.startHeight == 0 && s.startOffset == 0 && s.startIntensity == MAX_INTENSITY && NonNegative(s)
    requires forall x :: MAX_INTENSITY <= x ==> MAX_INTENSITY <= s.attenuate(1, x)
    requires s.attenuate(2, 0) == 0 && forall x :: 50 <= x ==> 1 <= s.attenuate(2, x)
    requires Shaped(g0, 2, 1) && InRange(g0) && g0[0][0] == 0
    ensures Pass(s, 3, 2, g0, noise).failure.None?
    ensures Pass(s, 3, 2, g0, noise).grid[0][0] == MAX_INTENSITY
    ensures Pass(s, 3, 2, g0, noise).grid[1][0] >= 1
    ensures GetIntensity(s, 2, g0, 1, 0, noise(1, 0)) == Ok(0)
  {
    PassKeepsRange(s, 3, 2, g0, noise);
    PassReadsSamePass(s, 3, 2, g0, noise);
    var g := Pass(s, 3, 2, g0, noise).grid;
    assert GetIntensity(s, 2, g, 0, 0, noise(0, 0)) == Ok(g[0][0]);
    BottomRowGetsSource(s, 2, g, 0, noise(0, 0));
    assert GetIntensity(s, 2, g, 1, 0, noise(1, 0)) == Ok(g[1][0]);
    assert NeighbourSum(s, 2, g, 1, 0) == Ok(MAX_INTENSITY);
    assert NeighbourSum(s, 2, g0, 1, 0) == Ok(0);
  }

  /**
   * With START_HEIGHT 0, no offset and a start intensity of 100, every cell
   * of the bottom row sees at least 100 + 100 from the heat-source row and
   * draws at least 100; when the fade and scale of row 0 keep such a draw at
   * 100 or more, as any scale of at least 1 does, the cell gets 100, whatever the grid.
   */
  lemma BottomRowGetsSource(s: Settings, width: int, g: seq<seq<int>>, j: int, raw: nat)
    requires s.startHeight == 0 && s.startOffset == 0 && s.startIntensity == MAX_INTENSITY
    requires forall x :: MAX_INTENSITY <= x ==> MAX_INTENSITY <= s.attenuate(1, x)
    requires 0 <= j < width - 1
    ensures GetIntensity(s, width, g, 0, j, raw) == Ok(MAX_INTENSITY)
  {
    assert NeighbourSum(s, width, g, 0, j).Ok? && NeighbourSum(s, width, g, 0, j).value >= 200;
  }

  /** The cell above a bottom cell holding v sees v + 0 + 0 and draws from [v // 2, v]. */
  lemma RowAboveReadsBelow(g: seq<seq<int>>, raw: nat)
    requires Shaped(g, 2, 1) && 0 <= g[0][0] <= MAX_INTENSITY
    ensures GetIntensity(Unfaded(), 2, g, 1, 0, raw).Ok?
    ensures g[0][0] / 2 <= GetIntensity(Unfaded(), 2, g, 1, 0, raw).value <= g[0][0]
  {
    assert NeighbourSum(Unfaded(), 2, g, 1, 0) == Ok(g[0][0]);
  }
}

=== FILE: palette.dfy ===
/**
 * The palette of the fire: the glyph table, the colour ramp, and the two
 * step functions that quantize a cell's intensity into an index of each.
 */
module Palette {
  import opened Wrappers
  import opened Runtime

  const MAX_INTENSITY := 100
  const NUM_PARTICLES := 5
  const NUM_COLORS := 30

  /**
   * The colour number of an RGB triple in the 6x6x6 colour cube of a
   * 256-colour terminal: each channel is reduced to one of six levels by
   * floor division by 48, and the cube starts at colour 16.
   */
  function Color(r: int, g: int, b: int): (c: int)
    ensures 0 <= r <= 255 && 0 <= g <= 255 && 0 <= b <= 255 ==> 16 <= c <= 231
  {
    16 + r / 48 * 36 + g / 48 * 6 + b / 48
  }

  /** Inside the cube, a colour number determines the three channel levels it came from. */
  lemma ColorDecodes(r: int, g: int, b: int)
    requires 0 <= r <= 255 && 0 <= g <= 255 && 0 <= b <= 255
    ensures (Color(r, g, b) - 16) / 36 == r / 48
    ensures (Color(r, g, b) - 16) / 6 % 6 == g / 48
    ensures (Color(r, g, b) - 16) % 6 == b / 48
  {
    var lr, lg, lb := r / 48, g / 48, b / 48;
    assert 0 <= lr < 6 && 0 <= lg < 6 && 0 <= lb < 6;
    var c := Color(r, g, b) - 16;
    assert c == 36 * lr + (6 * lg + lb);
    assert c / 6 == 6 * lr + lg;
  }

  /** A brighter channel never gives a lower colour number. */
  lemma ColorMonotone(r: int, g: int, b: int, r': int, g': int, b': int)
    requires r <= r' && g <= g' && b <= b'
    ensures Color(r, g, b) <= Color(r', g', b')
  {
    DivMonotone(r, r');
    DivMonotone(g, g');
    DivMonotone(b, b');
  }

  lemma DivMonotone(x: int, y: int)
    requires x <= y
    ensures x / 48 <= y / 48
  {
  }

  /**
   * The colour ramp: black to red in 16 steps, then red to yellow in 16
   * steps. Each channel moves by 16 per step, so its cube level rises every
   * third step; `HeatIsColorRamp` shows these are the colours of the ramp.
   */
  function Heat(): (t: seq<int>)
    ensures |t| == 32
    ensures forall k :: 0 <= k < |t| ==> 16 <= t[k] <= 231
  {
    seq(32, k => if k < 16 then 16 + k / 3 * 36 else 196 + (k - 16) / 3 * 6)
  }

  /** Step k of each half of the ramp raises one channel to 16 * k. */
  lemma HeatIsColorRamp(k: int)
    requires 0 <= k < 16
    ensures Heat()[k] == Color(16 * k, 0, 0)
    ensures Heat()[16 + k] == Color(255, 16 * k, 0)
  {
    assert 16 * k / 48 == k / 3 by {
      assert 16 * k == 48 * (k / 3) + 16 * (k % 3);
    }
  }

  lemma HeatNonDecreasing(k: int, l: int)
    requires 0 <= k <= l < |Heat()|
    ensures Heat()[k] <= Heat()[l]
  {
    if l < 16 {
      HeatIsColorRamp(k);
      HeatIsColorRamp(l);
      ColorMonotone(16 * k, 0, 0, 16 * l, 0, 0);
    } else if k < 16 {
      HeatIsColorRamp(k);
      HeatIsColorRamp(l - 16);
      ColorMonotone(16 * k, 0, 0, 255, 16 * (l - 16), 0);
    } else {
      HeatIsColorRamp(k - 16);
      HeatIsColorRamp(l - 16);
      ColorMonotone(255, 16 * (k - 16), 0, 255, 16 * (l - 16), 0);
    }
  }

  /** The ramp starts at black, reaches full red at its middle and ends at (nearly) yellow. */
  lemma HeatEnds()
    ensures Heat()[0] == Color(0, 0, 0) == 16
    ensures Heat()[16] == Color(255, 0, 0) == 196
    ensures Heat()[31] == Color(255, 240, 0) == 226
  {
  }

  /** The glyphs, from an empty cell to the densest flame. */
  function Particles(): (p: seq<char>)
    ensures |p| == NUM_PARTICLES
    ensures p[0] == ' ' && p[NUM_PARTICLES - 1] == '@'
  {
    [' ', '.', '*', '#', '@']
  }

  /**
   * The step function shared by both lookups: `intensity * n / MAX` truncated
   * toward zero, capped at the last index `n - 1`.
   */
  function Quantize(intensity: int, n: int): (k: int)
    requires n >= 1
    ensures k <= n - 1
    ensures 0 <= intensity ==> 0 <= k
  {
    TruncDivBounds(intensity * n, MAX_INTENSITY);
    Min(TruncDiv(intensity * n, MAX_INTENSITY), n - 1)
  }

  /**
   * For a non-negative intensity the index is the bucket the intensity falls
   * in: the largest k < n with k * MAX <= intensity * n.
   */
  lemma QuantizeIsBucket(intensity: int, n: int)
    requires n >= 1 && 0 <= intensity
    ensures Quantize(intensity, n) * MAX_INTENSITY <= intensity * n
    ensures Quantize(intensity, n) == n - 1
         || intensity * n < (Quantize(intensity, n) + 1) * MAX_INTENSITY
  {
    assert 0 <= intensity * n;
    TruncDivBounds(intensity * n, MAX_INTENSITY);
  }

  /** A hotter cell never gets a cooler index. */
  lemma QuantizeMonotone(intensity: int, intensity': int, n: int)
    requires n >= 1 && intensity <= intensity'
    ensures Quantize(intensity, n) <= Quantize(intensity', n)
  {
    assert intensity * n <= intensity' * n by {
      assert (intensity' - intensity) * n >= 0;
    }
    TruncDivMonotone(intensity * n, intensity' * n, MAX_INTENSITY);
  }

  function ParticleIndex(intensity: int): (k: int)
    ensures 0 <= intensity ==> 0 <= k < NUM_PARTICLES
  {
    Quantize(intensity, NUM_PARTICLES)
  }

  function ColorIndex(intensity: int): (k: int)
    ensures 0 <= intensity ==> 0 <= k < NUM_COLORS
    ensures k < |Heat()|
  {
    Quantize(intensity, NUM_COLORS)
  }

  /**
   * The glyph of a cell. A negative index wraps around the table, and one
   * below -5 raises IndexError: that happens exactly for intensities of
   * -120 and below.
   */
  function GetParticle(intensity: int): Result<char, Exception>
  {
    match Index(Particles(), ParticleIndex(intensity))
    case Some(p) => Ok(p)
    case None => Err(IndexError)
  }

  /**
   * The colour of a cell, as a colour number of the ramp. Only the first 30
   * of its 32 entries are ever chosen for non-negative intensities; negative
   * indices wrap, and IndexError is raised exactly for intensities of -110
   * and below.
   */
  function GetColor(intensity: int): Result<int, Exception>
  {
    match Index(Heat(), ColorIndex(intensity))
    case Some(c) => Ok(c)
    case None => Err(IndexError)
  }

  /**
   * A non-negative intensity gets the glyph of its bucket, and IndexError is
   * raised exactly for intensities of -120 and below; in between, a negative
   * index wraps around the table.
   */
  lemma GetParticleCases(intensity: int)
    ensures 0 <= intensity ==> GetParticle(intensity) == Ok(Particles()[ParticleIndex(intensity)])
    ensures GetParticle(intensity).Err? <==> intensity <= -120
    ensures -120 < intensity ==> GetParticle(intensity) == Ok(Particles()[ParticleIndex(intensity) % NUM_PARTICLES])
  {
    var k := ParticleIndex(intensity);
    TruncDivBounds(intensity * NUM_PARTICLES, MAX_INTENSITY);
    assert -NUM_PARTICLES <= k <==> -120 < intensity;
    if -NUM_PARTICLES <= k < 0 {
      assert k % NUM_PARTICLES == NUM_PARTICLES + k;
    } else if 0 <= k {
      assert k % NUM_PARTICLES == k;
    }
  }

  /**
   * A non-negative intensity gets the ramp colour of its bucket, in
   * [16, 231], and IndexError is raised exactly for intensities of -110 and
   * below; in between, a negative index wraps around the ramp.
   */
  lemma GetColorCases(intensity: int)
    ensures 0 <= intensity ==> GetColor(intensity) == Ok(Heat()[ColorIndex(intensity)])
    ensures 0 <= intensity ==> 16 <= GetColor(intensity).value <= 231
    ensures GetColor(intensity).Err? <==> intensity <= -110
    ensures -110 < intensity ==> GetColor(intensity) == Ok(Heat()[ColorIndex(intensity) % |Heat()|])
  {
    var k := ColorIndex(intensity);
    TruncDivBounds(intensity * NUM_COLORS, MAX_INTENSITY);
    assert -|Heat()| <= k <==> -110 < intensity;
    if -|Heat()| <= k < 0 {
      assert k % |Heat()| == |Heat()| + k;
      assert Index(Heat(), k) == Some(Heat()[k % |Heat()|]);
    } else if 0 <= k {
      assert k % |Heat()| == k;
    }
  }
}

=== FILE: propagation.dfy ===
/**
 * How one cell's new intensity is computed: the rule for what a neighbour
 * reads as (heat-source row, margins, stored value), the three-neighbour sum
 * from the row below, the random draw from half the sum to all of it, and
 * the fade with distance from the heat source.
 */
module Propagation {
  import opened Wrappers
  import opened Runtime
  import opened Palette

  /**
   * The start-up settings of the fire. `attenuate(d, draw)` stands for the
   * floating-point step `int(draw / d ** 0.3 * scale)`: the draw divided by
   * the fade of a cell at fade base `d` (its distance from the heat source,
   * counting from 1), multiplied by the scale, truncated to an integer.
   */
  datatype Settings = Settings(
    startIntensity: int,
    startOffset: int,
    startHeight: int,
    attenuate: (int, int) -> int)

  /**
   * Number of grid rows (or columns) for a screen `n` lines tall (or
   * characters wide): one line (or column) of margin, and none at all when
   * the screen has at most one.
   */
  function GridSize(n: int): (m: nat)
    ensures m == 0 <==> n <= 1
    ensures m > 0 ==> m == n - 1
  {
    if n >= 1 then n - 1 else 0
  }

  /** The grid has `rows` rows of `cols` cells each. */
  ghost predicate Shaped(g: seq<seq<int>>, rows: int, cols: int) {
    |g| == rows && forall i :: 0 <= i < |g| ==> |g[i]| == cols
  }

  /**
   * What cell (i, j) of the grid `g` reads as, for a screen `width` wide
   * (see `IntensityCases`). A row index outside the list raises IndexError,
   * negative ones counting from the top row.
   */
  function Intensity(s: Settings, width: int, g: seq<seq<int>>, i: int, j: int): (r: Result<int, Exception>)
  {
    if i < s.startHeight - 1 then Ok(0)
    else if i == s.startHeight - 1 then
      if s.startOffset > j || width - s.startOffset < j then Ok(0) else Ok(s.startIntensity)
    else if j < 0 then Ok(0)
    else if j >= width - 1 then Ok(0)
    else
      match Index(g, i)
      case None => Err(IndexError)
      case Some(row) =>
        match Index(row, j)
        case None => Err(IndexError)
        case Some(v) => Ok(Min(v, MAX_INTENSITY))
  }

  /**
   * The read rule case by case: rows below the heat source read 0; the
   * heat-source row reads the start intensity inside the offset window,
   * tested before any column bound; columns outside the grid read 0; any
   * other read is at most MAX_INTENSITY, fails exactly when the row index is
   * outside the list, and reads the stored value capped at MAX_INTENSITY.
   */
  lemma IntensityCases(s: Settings, width: int, g: seq<seq<int>>, i: int, j: int)
    ensures i < s.startHeight - 1 ==> Intensity(s, width, g, i, j) == Ok(0)
    ensures i == s.startHeight - 1 ==>
      Intensity(s, width, g, i, j) == Ok(if s.startOffset <= j <= width - s.startOffset then s.startIntensity else 0)
    ensures i >= s.startHeight && (j < 0 || j >= width - 1) ==> Intensity(s, width, g, i, j) == Ok(0)
    ensures i >= s.startHeight && Intensity(s, width, g, i, j).Ok? ==> Intensity(s, width, g, i, j).value <= MAX_INTENSITY
    ensures i >= s.startHeight && 0 <= j < width - 1 && Shaped(g, |g|, GridSize(width)) ==>
      (Intensity(s, width, g, i, j).Ok? <==> -|g| <= i < |g|)
    ensures 0 <= i < |g| && 0 <= j < |g[i]| && i >= s.startHeight && j < width - 1 ==>
      Intensity(s, width, g, i, j) == Ok(Min(g[i][j], MAX_INTENSITY))
  {
  }

  /**
   * With START_HEIGHT <= -1, a read of row -1 in a grid column is a read
   * of the top row of the grid.
   */
  lemma RowMinusOneIsTopRow(s: Settings, width: int, g: seq<seq<int>>, j: int)
    requires s.startHeight <= -1 && |g| >= 1 && 0 <= j < width - 1 && Shaped(g, |g|, GridSize(width))
    ensures Intensity(s, width, g, -1, j) == Ok(Min(g[|g| - 1][j], MAX_INTENSITY))
  {
  }

  /** The sum of the three neighbours in row i - 1, read left to right as (j, j + 1, j - 1). */
  function NeighbourSum(s: Settings, width: int, g: seq<seq<int>>, i: int, j: int): (r: Result<int, Exception>)
  {
    var centre :- Intensity(s, width, g, i - 1, j);
    var right :- Intensity(s, width, g, i - 1, j + 1);
    var left :- Intensity(s, width, g, i - 1, j - 1);
    Ok(centre + right + left)
  }

  /** The fade of row i is FadeBase(i) ** 0.3: 1 at and below the heat source, growing above it. */
  function FadeBase(s: Settings, i: int): (d: int)
    ensures d >= 1
    ensures i <= s.startHeight ==> d == 1
  {
    if i >= s.startHeight then i - s.startHeight + 1 else 1
  }

  /**
   * The new intensity of cell (i, j): a draw chosen by `raw` from
   * [sum // 2, sum] of the neighbour sum, attenuated, capped at MAX_INTENSITY.
   */
  function GetIntensity(s: Settings, width: int, g: seq<seq<int>>, i: int, j: int, raw: nat): Result<int, Exception>
  {
    var sum :- NeighbourSum(s, width, g, i, j);
    var draw :- RandInt(sum / 2, sum, raw);
    Ok(Min(s.attenuate(FadeBase(s, i), draw), MAX_INTENSITY))
  }

  /**
   * The new intensity is at most MAX_INTENSITY, and there is one exactly when
   * the three reads succeed and their sum is at least -1; otherwise the read's
   * IndexError or randint's ValueError is raised.
   */
  lemma GetIntensityCases(s: Settings, width: int, g: seq<seq<int>>, i: int, j: int, raw: nat)
    ensures GetIntensity(s, width, g, i, j, raw).Ok? ==> GetIntensity(s, width, g, i, j, raw).value <= MAX_INTENSITY
    ensures GetIntensity(s, width, g, i, j, raw).Ok? <==>
      NeighbourSum(s, width, g, i, j).Ok? && NeighbourSum(s, width, g, i, j).value >= -1
    ensures GetIntensity(s, width, g, i, j, raw).Err? && NeighbourSum(s, width, g, i, j).Ok? ==>
      GetIntensity(s, width, g, i, j, raw).error == ValueError
  {
  }

  /** Every stored intensity lies in [0, MAX_INTENSITY]. */
  ghost predicate InRange(g: seq<seq<int>>) {
    forall i, j :: 0 <= i < |g| && 0 <= j < |g[i]| ==> 0 <= g[i][j] <= MAX_INTENSITY
  }

  /** A non-negative start intensity, and a fade and scale that keep non-negative draws non-negative. */
  ghost predicate NonNegative(s: Settings) {
    && s.startIntensity >= 0
    && forall d, x :: 1 <= d && 0 <= x ==> 0 <= s.attenuate(d, x)
  }

  /**
   * Inside a grid of at least one row, the neighbour reads of any row never
   * fall outside the list: row i - 1 is either a real row or row -1, which
   * is the top row.
   */
  lemma {:induction false} NeighbourSumInGrid(s: Settings, width: int, g: seq<seq<int>>, i: int, j: int)
    requires Shaped(g, |g|, GridSize(width)) && 0 <= i < |g|
    ensures NeighbourSum(s, width, g, i, j).Ok?
  {
    assert Intensity(s, width, g, i - 1, j).Ok?;
    assert Intensity(s, width, g, i - 1, j + 1).Ok?;
    assert Intensity(s, width, g, i - 1, j - 1).Ok?;
  }

  /**
   * Below the heat source everything reads 0, so the draw is 0 and the fade
   * 1: a cell in a row under START_HEIGHT gets intensity 0 whatever the grid
   * and the random draw, as long as a zero draw attenuates to 0.
   */
  lemma BelowSourceIsZero(s: Settings, width: int, g: seq<seq<int>>, i: int, j: int, raw: nat)
    requires i < s.startHeight && s.attenuate(1, 0) == 0
    ensures GetIntensity(s, width, g, i, j, raw) == Ok(0)
  {
    assert NeighbourSum(s, width, g, i, j) == Ok(0);
  }

  /**
   * The possible new intensities of a cell are exactly the attenuated draws
   * from [sum // 2, sum], capped: every result is one of them ...
   */
  lemma GetIntensityIsDraw(s: Settings, width: int, g: seq<seq<int>>, i: int, j: int, raw: nat)
    requires GetIntensity(s, width, g, i, j, raw).Ok?
    ensures NeighbourSum(s, width, g, i, j).Ok?
    ensures var sum := NeighbourSum(s, width, g, i, j).value;
      exists draw ::
        && sum / 2 <= draw <= sum
        && GetIntensity(s, width, g, i, j, raw).value == Min(s.attenuate(FadeBase(s, i), draw), MAX_INTENSITY)
  {
    var sum := NeighbourSum(s, width, g, i, j).value;
    var draw := RandInt(sum / 2, sum, raw).value;
    assert GetIntensity(s, width, g, i, j, raw).value == Min(s.attenuate(FadeBase(s, i), draw), MAX_INTENSITY);
  }

  /** ... and every draw of the range is produced by some random number. */
  lemma EveryDrawReachable(s: Settings, width: int, g: seq<seq<int>>, i: int, j: int, draw: int)
    requires NeighbourSum(s, width, g, i, j).Ok?
    requires NeighbourSum(s, width, g, i, j).value / 2 <= draw <= NeighbourSum(s, width, g, i, j).value
    ensures exists raw: nat ::
      GetIntensity(s, width, g, i, j, raw) == Ok(Min(s.attenuate(FadeBase(s, i), draw), MAX_INTENSITY))
  {
    var sum := NeighbourSum(s, width, g, i, j).value;
    var raw: nat := draw - sum / 2;
    RandIntPicks(sum / 2, sum, raw);
    assert GetIntensity(s, width, g, i, j, raw) == Ok(Min(s.attenuate(FadeBase(s, i), draw), MAX_INTENSITY));
  }

  /**
   * With non-negative settings and stored values in range, every cell of the
   * grid gets a new intensity in [0, MAX_INTENSITY]: no read leaves the list
   * and the draw's range is never empty.
   */
  lemma {:induction false} GetIntensityInRange(s: Settings, width: int, g: seq<seq<int>>, i: int, j: int, raw: nat)
    requires NonNegative(s) && InRange(g)
    requires Shaped(g, |g|, GridSize(width)) && 0 <= i < |g|
    ensures GetIntensity(s, width, g, i, j, raw).Ok?
    ensures 0 <= GetIntensity(s, width, g, i, j, raw).value <= MAX_INTENSITY
  {
    NeighbourSumInGrid(s, width, g, i, j);
    ReadNonNegative(s, width, g, i - 1, j);
    ReadNonNegative(s, width, g, i - 1, j + 1);
    ReadNonNegative(s, width, g, i - 1, j - 1);
    var sum := NeighbourSum(s, width, g, i, j).value;
    assert 0 <= sum;
    var draw := RandInt(sum / 2, sum, raw).value;
    assert 0 <= s.attenuate(FadeBase(s, i), draw);
  }

  lemma ReadNonNegative(s: Settings, width: int, g: seq<seq<int>>, i: int, j: int)
    requires NonNegative(s) && InRange(g)
    requires Intensity(s, width, g, i, j).Ok?
    ensures 0 <= Intensity(s, width, g, i, j).value
  {
  }

  /**
   * A read touches only the row it names: two grids of the same length that
   * agree on row i read the same there, and a row under the heat source does
   * not touch the grid at all.
   */
  lemma IntensityReadsOneRow(s: Settings, width: int, g: seq<seq<int>>, g': seq<seq<int>>, i: int, j: int)
    requires i < s.startHeight || (0 <= i < |g| == |g'| && g[i] == g'[i])
    ensures Intensity(s, width, g, i, j) == Intensity(s, width, g', i, j)
  {
  }

  /** So the new intensity of a cell depends on the grid only through the row below it. */
  lemma {:induction false} GetIntensityReadsRowBelow(s: Settings, width: int, g: seq<seq<int>>, g': seq<seq<int>>, i: int, j: int, raw: nat)
    requires i - 1 < s.startHeight || (0 <= i - 1 < |g| == |g'| && g[i - 1] == g'[i - 1])
    ensures GetIntensity(s, width, g, i, j, raw) == GetIntensity(s, width, g', i, j, raw)
  {
    IntensityReadsOneRow(s, width, g, g', i - 1, j);
    IntensityReadsOneRow(s, width, g, g', i - 1, j + 1);
    IntensityReadsOneRow(s, width, g, g', i - 1, j - 1);
  }
}

=== FILE: runtime.dfy ===
/**
 * The few pieces of the host language's runtime semantics that the fire
 * simulation relies on: `min`, truncating conversion of a quotient to an
 * integer, list indexing with negative indices, and `random.randint` with
 * its randomness supplied by the caller.
 */
module Runtime {
  import opened Wrappers

  /** The exceptions the simulation core can raise. */
  datatype Exception =
    | IndexError   // a list index outside [-len, len)
    | ValueError   // randint asked for an empty range

  function Min(a: int, b: int): (m: int)
    ensures m <= a && m <= b
    ensures m == a || m == b
  {
    if a <= b then a else b
  }

  /**
   * `int(a / b)` for a true division of integers: the exact quotient rounded
   * toward zero (Dafny's own `/` rounds toward minus infinity instead).
   */
  function TruncDiv(a: int, b: int): int
    requires b > 0
  {
    if a >= 0 then a / b else -((-a) / b)
  }

  /** The truncated quotient, times b, lies within b of a, on zero's side of it. */
  lemma TruncDivBounds(a: int, b: int)
    requires b > 0
    ensures 0 <= a ==> 0 <= TruncDiv(a, b) * b <= a < TruncDiv(a, b) * b + b
    ensures a < 0 ==> TruncDiv(a, b) * b - b < a <= TruncDiv(a, b) * b <= 0
  {
    if a >= 0 {
      DivBounds(a, b);
    } else {
      DivBounds(-a, b);
    }
  }

  lemma DivBounds(n: nat, b: int)
    requires b > 0
    ensures 0 <= (n / b) * b <= n < (n / b) * b + b
  {
    var q, r := n / b, n % b;
    assert n == q * b + r;
    assert 0 <= q;
    assert 0 <= q * b;
  }

  lemma TruncDivMonotone(a: int, a': int, b: int)
    requires b > 0 && a <= a'
    ensures TruncDiv(a, b) <= TruncDiv(a', b)
  {
    TruncDivBounds(a, b);
    TruncDivBounds(a', b);
    var q, q' := TruncDiv(a, b), TruncDiv(a', b);
    // q * b <= max(a, 0) and min(a', 0) <= q' * b, with a <= a', so q * b < (q' + 1) * b
    assert q * b < (q' + 1) * b by {
      assert (q' + 1) * b == q' * b + b;
    }
    CancelFactor(q, q' + 1, b);
  }

  lemma CancelFactor(x: int, y: int, b: int)
    requires b > 0 && x * b < y * b
    ensures x < y
  {
    assert (y - x) * b == y * b - x * b;
  }

  /** `s[k]` on a list: negative indices count from the end. */
  function Index<T>(s: seq<T>, k: int): (r: Option<T>)
    ensures r.Some? <==> -|s| <= k < |s|
    ensures 0 <= k < |s| ==> r == Some(s[k])
    ensures -|s| <= k < 0 ==> r == Some(s[|s| + k])
  {
    if 0 <= k < |s| then Some(s[k])
    else if -|s| <= k < 0 then Some(s[|s| + k])
    else None
  }

  /**
   * `random.randint(lo, hi)`: a value of [lo, hi] chosen by the raw random
   * number `raw`, or ValueError when the range is empty.
   */
  function RandInt(lo: int, hi: int, raw: nat): (r: Result<int, Exception>)
    ensures r.Ok? <==> lo <= hi
    ensures r.Ok? ==> lo <= r.value <= hi
    ensures r.Err? ==> r.error == ValueError
  {
    if lo <= hi then Ok(lo + raw % (hi - lo + 1)) else Err(ValueError)
  }

  /** A raw number below the width of the range draws the value that far above `lo`. */
  lemma RandIntPicks(lo: int, hi: int, raw: nat)
    requires raw <= hi - lo
    ensures RandInt(lo, hi, raw) == Ok(lo + raw)
  {
    assert raw % (hi - lo + 1) == raw;
  }

  /** Supplying the randomness loses nothing: every value of the range can be drawn. */
  lemma RandIntCovers(lo: int, hi: int, v: int)
    requires lo <= v <= hi
    ensures exists raw: nat :: RandInt(lo, hi, raw) == Ok(v)
  {
    RandIntPicks(lo, hi, v - lo);
  }
}

=== FILE: wrappers.dfy ===
/** Failure-compatible result type used for the operations that can raise. */
module Wrappers {

  datatype Option<+T> = None | Some(value: T)

  datatype Result<+T, +E> = Ok(value: T) | Err(error: E) {

    predicate IsFailure() {
      Err?
    }

    function PropagateFailure<U>(): Result<U, E>
      requires Err?
    {
      Err(error)
    }

    function Extract(): T
      requires Ok?
    {
      value
    }
  }
}
